=== FILE: README.md ===
# Deadline task: a verified model

This project models the deadline variant of the task tracker's task model: a task
with a name, a done flag and a due date-time. It covers these parts:

- the date-time codec for the fixed pattern `yyyy-MM-dd HHmm`, including how java.time's
  strict parser and its default (SMART) resolver treat the text;
- the save line `D | <0|1> | <name> | <date>`;
- the free-form update `<name> /by <date>`, split the way `String.split` splits it;
- the text shown to the user: `getDetails` with the pattern `MMM d yyyy, h:mm a`, and `toString`.

Modules, leaves first:

| file | module | what it holds |
|---|---|---|
| `wrappers.dfy` | `Wrappers` | `Option` and `Result` |
| `digits.dfy` | `Digits` | ASCII decimal digits, zero padding, reading digit strings |
| `calendar.dfy` | `Calendar` | `DateTime`, leap years, month lengths, validity, next/previous day |
| `save_pattern.dfy` | `SavePattern` | `yyyy-MM-dd HHmm`: `Format`, and `Parse` = `Lex` then `Resolve` |
| `display_pattern.dfy` | `DisplayPattern` | `MMM d yyyy, h:mm a` (English), and a reader that shows it loses nothing |
| `literal_split.dfy` | `LiteralSplit` | `String.split` with limit 0 for a separator without regex metacharacters |
| `deadline_task.dfy` | `Deadline` | the task record, `Create`, `SaveLine`, `Details`, `Render`, `Update` |

The Java class mutates itself. Here the task is an immutable record
`DeadlineTask(name, done, due)` and every operation is a pure function. The Java field `by`
is called `due` because `by` is a Dafny keyword. `updateTask` can throw after it has already
assigned the name, so `Update` returns an `UpdateOutcome`. On failure the outcome carries
the exception kind and the state the task is left in.

How the date text is read, as modelled:

- `yyyy` is the year of the era. It is either exactly four ASCII digits, or a `+`
  followed by 5 to 19 digits. The year must be between 1 and 999,999,999.
- `MM`, `dd`, `HH` and `mm` are exactly two ASCII digits each. The literals `-`, `-` and
  the space must appear where the pattern puts them, and the whole text must be used up.
- The month must be 1..12, the day of the month 1..31, and the minute 0..59.
- A day past the end of its month is moved back to the month's last day. So
  `2024-02-30 1200` is read as 29 February.
- Hour `24` with minute `00` means midnight at the end of that day. So `2023-12-31 2400`
  is read as `2024-01-01 0000`. Any other hour must be 0..23.

What the class's own documentation says, and what the code does: the constructor's
Javadoc (`DeadlineTask.java:18`) asks for the deadline "in `yyyy-MM-dd HHmm` format", and
`updateTask`'s (`DeadlineTask.java:50`) asks for "name /by deadline". The code accepts more
and fails differently, and the model follows the code. `LocalDateTime.parse` under the
SMART resolver accepts a day past the month's end and the hour 24, as listed above. In
`updateTask`, a text without ` /by ` fails at the array access (`parts[1]`), and by then the
name has already been replaced by the whole text.

## Model

| member | source | states |
|---|---|---|
| SavePattern.Format | src/main/java/bean/task/DeadlineTask.java:43-44 | the save date text is 15 characters exactly when the year has at most four digits, and uses only digits, `-`, space and `+` (never a `|` or `/`) |
| SavePattern.Lex | src/main/java/bean/task/DeadlineTask.java:10 | strict matching of `yyyy-MM-dd HHmm`: text accepted by the pattern is at least 15 characters, longer only with a leading `+`, with `-`, `-` and space at fixed distances from its end |
| SavePattern.Resolve | src/main/java/bean/task/DeadlineTask.java:22 | every date-time the resolver produces is valid, and it keeps the minute and never lowers the year |
| SavePattern.Parse | src/main/java/bean/task/DeadlineTask.java:22 | a successful parse yields a valid date-time, and only from text the pattern matches |
| SavePattern.ParseFormat | src/main/java/bean/task/DeadlineTask.java:43-44 | round trip: the save text of any valid date-time parses back to the same date-time, because saving and parsing share one pattern |
| SavePattern.FormatParse | src/main/java/bean/task/DeadlineTask.java:22 | converse round trip: a 15-character text whose fields are already in range parses to a date-time whose save text is that very text |
| SavePattern.LexText | src/main/java/bean/task/DeadlineTask.java:10 | the lexer reads every field of a field-by-field printed text back, for any year of at most 19 digits (the model's year field, including years 0 and above 999,999,999 that resolving then rejects; java.time's own parser stops one digit earlier past the 64-bit range and admits a leading `-` until resolving, but rejects the same texts in the end) and any two-digit month, day, hour and minute, in range or not |
| SavePattern.ResolveRejects | src/main/java/bean/task/DeadlineTask.java:22 | exactly when the parse throws after lexing: year, month, day (1..31) or minute out of range, hour above 24, hour 24 with a non-zero minute, or 24:00 on the last day of the last year |
| SavePattern.ResolveClampsDay | src/main/java/bean/task/DeadlineTask.java:22 | a day of month 29..31 past the month's end is read as the month's last day, not rejected |
| SavePattern.ResolveEndOfDay | src/main/java/bean/task/DeadlineTask.java:22 | 24:00 on a valid date is read as midnight at the start of the following day, for every date but the last day of the last year |
| SavePattern.ResolveEndOfClampedDay | src/main/java/bean/task/DeadlineTask.java:22 | 24:00 on a day past the month's end (such as 30 February) is read as midnight on the first of the next month: the day is moved back first, then the day is stepped |
| SavePattern.ParseRejectsShape | src/main/java/bean/task/DeadlineTask.java:20-23 | construction fails for text that is too short, longer than 15 characters without a `+`, or has a wrong separator |
| SavePattern.ParseRejectsYearNonDigit | src/main/java/bean/task/DeadlineTask.java:20-23 | construction fails when the year field holds a non-digit after its optional `+` |
| SavePattern.ParseRejectsNonDigit | src/main/java/bean/task/DeadlineTask.java:20-23 | construction fails when a month, day, hour or minute position holds a non-digit |
| DisplayPattern.ClockHourRoundTrip | src/main/java/bean/task/DeadlineTask.java:32 | the 12-hour reading `h` with its `a` marker determines the 24-hour hour (0 shows as 12 AM, 12 as 12 PM) |
| DisplayPattern.Display | src/main/java/bean/task/DeadlineTask.java:32-33 | the displayed text starts with the English month abbreviation and ends with the `AM`/`PM` marker of the hour; its partner `ReadDisplayRoundTrip` shows that the whole text determines the date-time |
| DisplayPattern.ReadDisplayRoundTrip | src/main/java/bean/task/DeadlineTask.java:32-33 | the displayed text `MMM d yyyy, h:mm a` can be read back to the exact date-time |
| DisplayPattern.ExampleMidnightTime | src/main/java/bean/task/DeadlineTask.java:32 | 00:05 is shown as `12:05 AM`: hour 0 is 12 on the 12-hour clock |
| DisplayPattern.DisplayInjective | src/main/java/bean/task/DeadlineTask.java:32-33 | two different date-times are never displayed alike |
| LiteralSplit.IndexOfSpec | src/main/java/bean/task/DeadlineTask.java:54 | the split's matcher reports a real occurrence of the separator with none between the start position and it, or reports none only when there is none |
| LiteralSplit.IndexOfFirst | src/main/java/bean/task/DeadlineTask.java:54 | conversely, the first occurrence at or after the start position is exactly what the matcher reports |
| LiteralSplit.PiecesJoin | src/main/java/bean/task/DeadlineTask.java:54 | cutting at successive first matches loses nothing: the pieces joined back with the separator give the text |
| LiteralSplit.PiecesFree | src/main/java/bean/task/DeadlineTask.java:54 | cutting at successive first matches leaves no piece that contains the separator |
| LiteralSplit.Split | src/main/java/bean/task/DeadlineTask.java:54 | no part contains the separator; the parts joined back with the separator are a prefix of the text, and what follows that prefix is nothing but repetitions of the separator (the dropped trailing empty strings); the last part is non-empty unless the text had no match; a text without the separator comes back whole; with a match, the first part is the text before the leftmost one. Which matches are cut at (leftmost, non-overlapping) is stated by `IndexOfSpec`, `IndexOfFirst` and `PiecesJoin` |
| LiteralSplit.SplitOne | src/main/java/bean/task/DeadlineTask.java:54 | a text with exactly one separator and something after it splits into the two sides |
| LiteralSplit.SplitEndsWithSeparator | src/main/java/bean/task/DeadlineTask.java:54 | when the text's only ` /by ` is at its very end, the trailing empty part is dropped, so only the part before it remains, or no part at all when nothing precedes it |
| LiteralSplit.SplitFirstTwo | src/main/java/bean/task/DeadlineTask.java:54 | with two or more separators and a non-empty text between the first two, part 0 is the text before the first and part 1 the text between the first two |
| LiteralSplit.SplitEmptyBetween | src/main/java/bean/task/DeadlineTask.java:54 | two separators back to back, followed by a non-empty text that does not start with the separator, give an empty part 1 that is kept, not dropped |
| Deadline.Create | src/main/java/bean/task/DeadlineTask.java:20-23 | construction succeeds exactly when the date text parses; the new task has the given name, is not done, and holds the parsed date; otherwise a parse error |
| Deadline.CreateFromSaveText | src/main/java/bean/task/DeadlineTask.java:20-23 | the constructor accepts any saved date text and rebuilds that date |
| Deadline.SaveLine | src/main/java/bean/task/DeadlineTask.java:42-45 | the save line is exactly `D | `, then `1` exactly when done (else `0`), then ` | `, the name unchanged, ` | `, and the due date in the save pattern |
| Deadline.SaveLineRoundTrip | src/main/java/bean/task/DeadlineTask.java:42-45 | the save line loses nothing: name, done flag and deadline can all be read back from it, even when the name contains ` | ` |
| Deadline.Details | src/main/java/bean/task/DeadlineTask.java:31-34 | the details are ` (by: `, the display text of the deadline, and `)` |
| Deadline.DetailsDetermineDeadline | src/main/java/bean/task/DeadlineTask.java:31-34 | tasks whose details agree are due at the same date-time |
| Deadline.RenderDeterminesDeadline | src/main/java/bean/task/DeadlineTask.java:65-67 | over the same base-class text, tasks displayed alike are due at the same date-time |
| Deadline.Render | src/main/java/bean/task/DeadlineTask.java:65-67 | the displayed task is `[D]`, then the base class's text unchanged, then the details |
| Deadline.Update | src/main/java/bean/task/DeadlineTask.java:53-57 | an update never changes the done flag; a failed one never changes the deadline; the name is kept or replaced by a prefix of the update text; without ` /by ` it fails at the array access with the whole text as the new name |
| Deadline.UpdateOneSeparator | src/main/java/bean/task/DeadlineTask.java:53-57 | with exactly one ` /by ` and a valid date after it, the name becomes the text before it and the deadline the parsed date |
| Deadline.UpdateNotAtomic | src/main/java/bean/task/DeadlineTask.java:55-56 | with one ` /by ` and a non-empty unparsable date, the update throws with the name already replaced and the old deadline kept |
| Deadline.UpdateSeparatorAtEnd | src/main/java/bean/task/DeadlineTask.java:54-56 | when the text's only ` /by ` is at its very end, the update fails at the array access `parts[1]` with the name replaced, or at `parts[0]` when the text is the separator alone |
| Deadline.UpdateManySeparators | src/main/java/bean/task/DeadlineTask.java:54-56 | with several ` /by ` and a non-empty part between the first two, everything after the second is ignored: the update equals the update with the text cut there |
| Deadline.UpdateEmptyDate | src/main/java/bean/task/DeadlineTask.java:54-56 | two ` /by ` back to back, followed by text that does not start with ` /by `: part 1 is the empty text between them, which does not parse, so the update throws after the name is replaced |
| Deadline.UpdateUsesFirstTwoParts | src/main/java/bean/task/DeadlineTask.java:54-56 | the update depends only on the first two parts of the split |
| Deadline.UpdateWithSaveText | src/main/java/bean/task/DeadlineTask.java:53-57 | round trip through the update grammar: `name /by <save text of d>` sets exactly that name and deadline when the name has no `/` |
| Deadline.ExampleCreate | src/main/java/bean/task/DeadlineTask.java:20-23 | `"submit report"` due `"2024-12-01 1800"` is created not done, due 1 December 2024 18:00 |
| Deadline.ExampleSave | src/main/java/bean/task/DeadlineTask.java:42-45 | that task's save line is `D | 0 | submit report | 2024-12-01 1800` |
| Deadline.ExampleUpdate | src/main/java/bean/task/DeadlineTask.java:53-57 | updating it with `submit report /by 2024-12-02 0900` moves the deadline to 2 December 2024 09:00 |

## Left out

- The `Task` base class is not part of this model. It stores the name and the done flag, marks and unmarks, and builds `super.toString()`. `Render` takes the base class's text as a parameter. A new task is taken to be not done.
- The other task variants, the task list, and loading and saving files are not part of this model. `ReadSaveLine` is not the program's loader. It is this model's own reader, used to show that a save line loses nothing.
- The graphical front end (`DialogBox.java`, `Launcher.java`) is layout and application start-up, with no logic to state.
- The display pattern is modelled with English month abbreviations (`Jan` … `Dec`) and `AM`/`PM`. The JVM's default locale, and the locale data of the JDK release, can change these texts.
- Years of earlier eras (year 0 and below) are outside `Calendar.Valid`. The `yyyy` field reads a year of the era of at least 1, so a deadline can never hold such a year.
- Seconds and nanoseconds of `LocalDateTime` are not modelled. Both patterns leave them zero.
- Null is left out: a Dafny string cannot be null. In Java, `updateTask(null)` and a constructor call with a null date text throw NullPointerException, and a null name is saved as the text `null`.
- Exceptions are reduced to their kind (`DateTimeParse`, `IndexOutOfBounds`). Messages and error positions are left out.
- `String.split` is modelled only for a separator without regular-expression metacharacters, which ` /by ` is.
- Java strings are sequences of UTF-16 code units, while a Dafny `char` is a Unicode scalar value. A name holding an unpaired surrogate has no counterpart in the model, and a supplementary character is one `char` here but two code units in Java. No modelled result depends on this, because the separator and both date patterns are ASCII and the name is only copied.
- SavePattern.Lex: its contract states the shape of accepted text. Which positions must hold digits is stated by `ParseRejectsYearNonDigit` and `ParseRejectsNonDigit`, and that the numbers it collects are the digits' values by the round-trip lemmas (`LexText`, `FormatParse`), not in its own contract.

=== FILE: calendar.dfy ===
/** The date-time value of java.time's LocalDateTime, restricted to the fields
    the deadline task uses (no seconds or nanoseconds: the patterns never set them),
    over the proleptic Gregorian calendar. */
module Calendar {

  /** Largest year a LocalDate can hold. */
  const MaxYear: int := 999_999_999

  datatype DateTime = DateTime(year: int, month: int, day: int, hour: int, minute: int)

  predicate IsLeap(year: int) {
    year % 4 == 0 && (year % 100 != 0 || year % 400 == 0)
  }

  function DaysInMonth(year: int, month: int): (n: int)
    requires 1 <= month <= 12
    ensures 28 <= n <= 31
    ensures n == 31 <==> month in {1, 3, 5, 7, 8, 10, 12}
    ensures n == 30 <==> month in {4, 6, 9, 11}
    ensures month == 2 ==> (n == 29 <==> IsLeap(year))
  {
    if month == 2 then (if IsLeap(year) then 29 else 28)
    else if month == 4 || month == 6 || month == 9 || month == 11 then 30
    else 31
  }

  predicate ValidDate(year: int, month: int, day: int) {
    1 <= year <= MaxYear && 1 <= month <= 12 && 1 <= day <= DaysInMonth(year, month)
  }

  /** A date-time every field of which is in range (years of the current era only). */
  predicate Valid(d: DateTime) {
    ValidDate(d.year, d.month, d.day) && 0 <= d.hour <= 23 && 0 <= d.minute <= 59
  }

  /** Chronological order on valid date-times: lexicographic on the fields. */
  predicate Before(a: DateTime, b: DateTime) {
    a.year < b.year
    || (a.year == b.year && a.month < b.month)
    || (a.year == b.year && a.month == b.month && a.day < b.day)
    || (a.year == b.year && a.month == b.month && a.day == b.day && a.hour < b.hour)
    || (a.year == b.year && a.month == b.month && a.day == b.day && a.hour == b.hour && a.minute < b.minute)
  }

  /** Midnight of the calendar day after `d`; the year may step past MaxYear. */
  function NextDay(d: DateTime): (n: DateTime)
    requires Valid(d)
    ensures Before(d, n) && n.hour == 0 && n.minute == 0
    ensures n.year <= MaxYear ==> Valid(n)
    ensures n.year > MaxYear <==> (d.year == MaxYear && d.month == 12 && d.day == 31)
  {
    if d.day < DaysInMonth(d.year, d.month) then DateTime(d.year, d.month, d.day + 1, 0, 0)
    else if d.month < 12 then DateTime(d.year, d.month + 1, 1, 0, 0)
    else DateTime(d.year + 1, 1, 1, 0, 0)
  }

  /** Midnight of the calendar day before `d`; the year may step below 1. */
  function PrevDay(d: DateTime): (p: DateTime)
    requires Valid(d)
    ensures p.year >= 1 ==> Valid(p)
    ensures Before(p, d)
  {
    if d.day > 1 then DateTime(d.year, d.month, d.day - 1, 0, 0)
    else if d.month > 1 then DateTime(d.year, d.month - 1, DaysInMonth(d.year, d.month - 1), 0, 0)
    else DateTime(d.year - 1, 12, 31, 0, 0)
  }

  /** NextDay steps exactly one day: stepping back returns to the start of the day. */
  lemma NextDayPrevDay(d: DateTime)
    requires Valid(d) && d.year < MaxYear
    ensures PrevDay(NextDay(d)) == d.(hour := 0, minute := 0)
  {
  }

  /** No valid day lies strictly between a day and its successor. */
  lemma NextDayIsImmediate(d: DateTime, e: DateTime)
    requires Valid(d) && Valid(e) && e.hour == 0 && e.minute == 0
    requires Before(d, e)
    ensures !Before(e, NextDay(d))
  {
  }
}

=== FILE: deadline_task.dfy ===
/** DeadlineTask (DeadlineTask.java): a task with a name, a done flag and a
    due date-time, as an immutable record with pure operations. The mutating
    updateTask becomes a function returning the task's state afterwards, also when
    it throws, because the Java method assigns the name before it can fail. */
module Deadline {
  import opened Wrappers
  import opened Calendar
  import opened LiteralSplit
  import SavePattern
  import DisplayPattern

  /** The exceptions DeadlineTask lets escape. */
  datatype Error =
    | DateTimeParse     // LocalDateTime.parse rejected the date text
    | IndexOutOfBounds  // the split in updateTask produced too few parts

  /** `name` and `done` belong to the Task base class; `due` is the Java field `by`
      (a keyword in Dafny). */
  datatype DeadlineTask = DeadlineTask(name: string, done: bool, due: DateTime)

  /** Every deadline a task can hold came out of the save pattern's parser. */
  predicate WellFormed(t: DeadlineTask) {
    Valid(t.due)
  }

  /** The literal updateTask splits on. */
  const Separator: string := " /by "

  /** The constructor: the base class takes the name, and the deadline text is
      parsed with the save pattern. A new task is not done. */
  function Create(name: string, dueText: string): (r: Result<DeadlineTask, Error>)
    ensures r.Success? <==> SavePattern.Parse(dueText).Some?
    ensures r.Success? ==> WellFormed(r.value) && r.value.name == name && !r.value.done
    ensures r.Success? ==> SavePattern.Parse(dueText) == Some(r.value.due)
    ensures r.Failure? ==> r.error == DateTimeParse
  {
    match SavePattern.Parse(dueText)
    case None => Failure(DateTimeParse)
    case Some(d) => Success(DeadlineTask(name, false, d))
  }

  /** The save line's status field. */
  function DoneFlag(done: bool): (c: char)
    ensures c == '1' <==> done
    ensures c == '0' <==> !done
  {
    if done then '1' else '0'
  }

  /** toSaveFormat: "D | <0|1> | <name> | <deadline in the save pattern>". */
  function SaveLine(t: DeadlineTask): (r: string)
    requires WellFormed(t)
    ensures |r| >= 8 && r[..4] == "D | " && r[4] == DoneFlag(t.done) && r[5..8] == " | "
    ensures var f, n := SavePattern.Format(t.due), |t.name|;
      |r| == 11 + n + |f| && r[8..8 + n] == t.name && r[8 + n..11 + n] == " | " && r[11 + n..] == f
  {
    "D | " + [DoneFlag(t.done)] + " | " + t.name + " | " + SavePattern.Format(t.due)
  }

  /** getDetails: the deadline in the display pattern, in parentheses. */
  function Details(t: DeadlineTask): (r: string)
    requires WellFormed(t)
    ensures var m := DisplayPattern.Display(t.due);
      |r| == |m| + 7 && r[..6] == " (by: " && r[6..|r| - 1] == m && r[|r| - 1] == ')'
  {
    " (by: " + DisplayPattern.Display(t.due) + ")"
  }

  /** toString: the type tag, then the base class's text (`base`, which this model
      does not see), then the details. */
  function Render(t: DeadlineTask, base: string): (r: string)
    requires WellFormed(t)
    ensures var e := Details(t);
      |r| == 3 + |base| + |e| && r[..3] == "[D]" && r[3..3 + |base|] == base && r[3 + |base|..] == e
  {
    "[D]" + base + Details(t)
  }

  /** What updateTask leaves behind: the new state, or the exception together with
      the state the task is in when it is thrown. */
  datatype UpdateOutcome =
    | Updated(task: DeadlineTask)
    | Failed(error: Error, task: DeadlineTask)

  /** updateTask: split the text on " /by ", assign part 0 to the name, then parse
      part 1 as the deadline. A missing part throws at the array access; a bad date
      throws in the parser, after the name has been assigned. */
  function Update(t: DeadlineTask, s: string): (r: UpdateOutcome)
    ensures r.task.done == t.done
    ensures r.Failed? ==> r.task.due == t.due
    ensures r.Updated? ==> WellFormed(r.task)
    ensures r.task.name == t.name || r.task.name <= s
    ensures NoneBetween(s, Separator, 0, |s|) ==> r == Failed(IndexOutOfBounds, t.(name := s))
  {
    var parts := Split(s, Separator);
    if |parts| == 0 then Failed(IndexOutOfBounds, t)
    else
      var named := t.(name := parts[0]);
      if |parts| < 2 then Failed(IndexOutOfBounds, named)
      else
        match SavePattern.Parse(parts[1])
        case None => Failed(DateTimeParse, named)
        case Some(d) => Updated(named.(due := d))
  }

  /** The save text of a deadline is accepted by the constructor, which rebuilds it. */
  lemma CreateFromSaveText(name: string, d: DateTime)
    requires Valid(d)
    ensures Create(name, SavePattern.Format(d)) == Success(DeadlineTask(name, false, d))
  {
    SavePattern.ParseFormat(d);
  }

  /** Index of the last occurrence of `c` in `s`. */
  function LastIndexOf(s: string, c: char): (r: Option<nat>)
    ensures r.Some? ==> r.value < |s| && s[r.value] == c
    ensures r.Some? ==> forall j :: r.value < j < |s| ==> s[j] != c
    ensures r.None? ==> forall j :: 0 <= j < |s| ==> s[j] != c
  {
    if |s| == 0 then None
    else if s[|s| - 1] == c then Some(|s| - 1)
    else LastIndexOf(s[..|s| - 1], c)
  }

  /** Reads a save line back. The name may itself contain " | ", but the date text
      never contains '|', so the last '|' is the one before the date. */
  function ReadSaveLine(line: string): (r: Option<DeadlineTask>)
    ensures r.Some? ==> WellFormed(r.value)
  {
    if |line| < 8 || line[..4] != "D | " || line[5..8] != " | " || (line[4] != '0' && line[4] != '1') then None
    else
      var rest := line[8..];
      match LastIndexOf(rest, '|')
      case None => None
      case Some(p) =>
        if p < 1 || p + 2 > |rest| || rest[p - 1] != ' ' || rest[p + 1] != ' ' then None
        else
          match SavePattern.Parse(rest[p + 2..])
          case None => None
          case Some(d) => Some(DeadlineTask(rest[..p - 1], line[4] == '1', d))
  }

  /** The last '|' of "<name> | <f>" is the one before `f` when `f` has none. */
  lemma {:induction false} LastBar(name: string, f: string)
    requires forall i :: 0 <= i < |f| ==> f[i] != '|'
    ensures LastIndexOf(name + " | " + f, '|') == Some(|name| + 1)
  {
    var s := name + " | " + f;
    if |f| == 0 {
      assert s[..|s| - 1] == name + " |";
    } else {
      assert s[..|s| - 1] == name + " | " + f[..|f| - 1];
      LastBar(name, f[..|f| - 1]);
    }
  }

  /** ReadSaveLine on positions: the flag, and the last '|' of the rest at `p`. */
  lemma ReadSaveLineAt(line: string, p: nat, d: DateTime)
    requires |line| >= 8 && line[..4] == "D | " && line[5..8] == " | "
    requires line[4] == '0' || line[4] == '1'
    requires LastIndexOf(line[8..], '|') == Some(p)
    requires 1 <= p && p + 2 <= |line[8..]| && line[8..][p - 1] == ' ' && line[8..][p + 1] == ' '
    requires SavePattern.Parse(line[8..][p + 2..]) == Some(d)
    ensures ReadSaveLine(line) == Some(DeadlineTask(line[8..][..p - 1], line[4] == '1', d))
  {
  }

  /** After the flag, the save line is the name, " | ", and the date text. */
  lemma SaveLineRest(t: DeadlineTask)
    requires WellFormed(t)
    ensures SaveLine(t)[8..] == t.name + " | " + SavePattern.Format(t.due)
  {
    var rest := t.name + " | " + SavePattern.Format(t.due);
    var head := "D | " + [DoneFlag(t.done)] + " | ";
    assert |head| == 8;
    assert SaveLine(t) == head + rest;
  }

  /** The fields around the last '|' of "<name> | <f>". */
  lemma AroundBar(name: string, f: string)
    ensures var rest, p := name + " | " + f, |name| + 1;
      p + 2 <= |rest| && rest[p - 1] == ' ' && rest[p + 1] == ' '
      && rest[p + 2..] == f && rest[..p - 1] == name
  {
    var rest := name + " | " + f;
    assert rest[|name| + 3..] == f && rest[..|name|] == name;
  }

  /** The save line keeps every field of the task: reading it back gives the task. */
  lemma SaveLineRoundTrip(t: DeadlineTask)
    requires WellFormed(t)
    ensures ReadSaveLine(SaveLine(t)) == Some(t)
  {
    var f, line := SavePattern.Format(t.due), SaveLine(t);
    var rest := t.name + " | " + f;
    SaveLineRest(t);
    assert line[8..] == rest;
    LastBar(t.name, f);
    AroundBar(t.name, f);
    SavePattern.ParseFormat(t.due);
    ReadSaveLineAt(line, |t.name| + 1, t.due);
  }

  /** The details text fixes the deadline: tasks displayed alike are due alike. */
  lemma DetailsDetermineDeadline(a: DeadlineTask, b: DeadlineTask)
    requires WellFormed(a) && WellFormed(b) && Details(a) == Details(b)
    ensures a.due == b.due
  {
    var da, db := DisplayPattern.Display(a.due), DisplayPattern.Display(b.due);
    assert da == Details(a)[6..|Details(a)| - 1];
    assert db == Details(b)[6..|Details(b)| - 1];
    DisplayPattern.DisplayInjective(a.due, b.due);
  }

  /** The displayed task fixes the deadline: tasks rendered alike over the same base
      text are due alike. */
  lemma RenderDeterminesDeadline(a: DeadlineTask, b: DeadlineTask, base: string)
    requires WellFormed(a) && WellFormed(b) && Render(a, base) == Render(b, base)
    ensures a.due == b.due
  {
    var ra := Render(a, base);
    assert Details(a) == ra[3 + |base|..];
    DetailsDetermineDeadline(a, b);
  }

  /** Two update texts whose first two parts agree update alike: the text after a
      second " /by " is never looked at. */
  lemma UpdateUsesFirstTwoParts(t: DeadlineTask, s1: string, s2: string)
    requires var p1, p2 := Split(s1, Separator), Split(s2, Separator);
      |p1| >= 2 && |p2| >= 2 && p1[0] == p2[0] && p1[1] == p2[1]
    ensures Update(t, s1) == Update(t, s2)
  {
  }

  /** " /by " with nothing after it: the trailing empty part is dropped, so part 1
      is missing. The name is assigned first unless nothing precedes the separator
      either, in which case the split is empty and part 0 is missing. */
  lemma UpdateSeparatorAtEnd(t: DeadlineTask, n: string)
    requires NoneBetween(n + Separator, Separator, 0, |n|)
    ensures Update(t, n + Separator)
            == Failed(IndexOutOfBounds, if n == "" then t else t.(name := n))
  {
    SplitEndsWithSeparator(n, Separator);
  }

  /** Exactly one " /by " followed by a valid date: the name becomes the text before
      it, the deadline the parsed date, and the done flag stays. */
  lemma UpdateOneSeparator(t: DeadlineTask, n: string, d: string, due: DateTime)
    requires NoneBetween(n + Separator + d, Separator, 0, |n|)
    requires NoneBetween(n + Separator + d, Separator, |n| + |Separator|, |n + Separator + d|)
    requires SavePattern.Parse(d) == Some(due)
    ensures Update(t, n + Separator + d) == Updated(DeadlineTask(n, t.done, due))
  {
    SplitOne(n, Separator, d);
  }

  /** Exactly one " /by " followed by a text that is not a date: the exception leaves
      the name already replaced and the deadline as it was. */
  lemma UpdateNotAtomic(t: DeadlineTask, n: string, d: string)
    requires d != ""
    requires NoneBetween(n + Separator + d, Separator, 0, |n|)
    requires NoneBetween(n + Separator + d, Separator, |n| + |Separator|, |n + Separator + d|)
    requires SavePattern.Parse(d).None?
    ensures Update(t, n + Separator + d) == Failed(DateTimeParse, t.(name := n))
  {
    SplitOne(n, Separator, d);
  }

  /** Several " /by ": the name is the text before the first, the date the text
      between the first and the second, and the rest is ignored. */
  lemma UpdateManySeparators(t: DeadlineTask, n: string, d: string, rest: string)
    requires d != ""
    requires NoneBetween(n + Separator + d + Separator + rest, Separator, 0, |n|)
    requires NoneBetween(n + Separator + d + Separator + rest, Separator,
                         |n| + |Separator|, |n| + |Separator| + |d|)
    ensures Update(t, n + Separator + d + Separator + rest) == Update(t, n + Separator + d)
  {
    var s := n + Separator + d + Separator + rest;
    var s1 := n + Separator + d;
    assert s1 <= s;
    NoneBetweenToPrefix(s1, s, Separator, 0, |n|);
    NoneBetweenToPrefix(s1, s, Separator, |n| + |Separator|, |s1|);
    SplitFirstTwo(n, Separator, d, rest);
    SplitOne(n, Separator, d);
    UpdateUsesFirstTwoParts(t, s, s1);
  }

  /** Two " /by " back to back with more text after them: part 1 is the empty text
      between them, which is no date, so the update throws with the name replaced. */
  lemma UpdateEmptyDate(t: DeadlineTask, n: string, rest: string)
    requires rest != "" && !(Separator <= rest)
    requires NoneBetween(n + Separator + Separator + rest, Separator, 0, |n|)
    ensures Update(t, n + Separator + Separator + rest) == Failed(DateTimeParse, t.(name := n))
  {
    SplitEmptyBetween(n, Separator, rest);
    SavePattern.ParseRejectsShape("");
  }

  /** No " /by " can start inside a name without '/' and end in the separator:
      its second character would have to be a '/' of the name or the separator's
      leading space. */
  lemma SlashFreeName(n: string)
    requires '/' !in n
    ensures NoneBetween(n + Separator, Separator, 0, |n|)
  {
    var s := n + Separator;
    forall i | 0 <= i < |n|
      ensures !Occurs(s, Separator, i)
    {
      assert s[i + 1] != '/' by {
        if i + 1 < |n| {
          assert s[i + 1] == n[i + 1];
        }
      }
      assert s[i..i + 5][1] != Separator[1];
    }
  }

  /** The save text never contains " /by ": it has no '/'. */
  lemma NoSeparatorInSaveText(n: string, d: DateTime)
    requires Valid(d)
    ensures var s := n + Separator + SavePattern.Format(d);
      NoneBetween(s, Separator, |n| + |Separator|, |s|)
  {
    var f := SavePattern.Format(d);
    var s := n + Separator + f;
    forall i | |n| + 5 <= i < |s| && i + 5 <= |s|
      ensures !Occurs(s, Separator, i)
    {
      assert s[i + 1] == f[i + 1 - |n| - 5];
      assert s[i..i + 5][1] != Separator[1];
    }
  }

  /** Round trip through the update grammar: "name /by <save text of d>" sets the
      name and the deadline to exactly those, for a name without '/'. */
  lemma UpdateWithSaveText(t: DeadlineTask, n: string, d: DateTime)
    requires '/' !in n && Valid(d)
    ensures Update(t, n + Separator + SavePattern.Format(d)) == Updated(DeadlineTask(n, t.done, d))
  {
    var f := SavePattern.Format(d);
    var s := n + Separator + f;
    SlashFreeName(n);
    assert n + Separator <= s;
    NoneBetweenFromPrefix(n + Separator, s, Separator, 0, |n|);
    NoSeparatorInSaveText(n, d);
    SavePattern.ParseFormat(d);
    UpdateOneSeparator(t, n, f, d);
  }

  /** Creating "submit report" due "2024-12-01 1800" gives a task not yet done. The
      date text arrives as a parameter so that the verifier reads the literal only
      through the round trip, instead of expanding it character by character. */
  lemma ExampleCreate(dueText: string)
    requires dueText == "2024-12-01 1800"
    ensures Create("submit report", dueText)
            == Success(DeadlineTask("submit report", false, DateTime(2024, 12, 1, 18, 0)))
  {
    SavePattern.ExampleParse(dueText);
  }

  /** That task's save line. */
  lemma ExampleSave()
    ensures SaveLine(DeadlineTask("submit report", false, DateTime(2024, 12, 1, 18, 0)))
            == "D | 0 | submit report | 2024-12-01 1800"
  {
    var t := DeadlineTask("submit report", false, DateTime(2024, 12, 1, 18, 0));
    SaveLineText(t);
    SavePattern.ExampleFormat();
    ExampleSaveText(SavePattern.Format(t.due));
  }

  /** The save line, piece by piece. */
  lemma SaveLineText(t: DeadlineTask)
    requires WellFormed(t)
    ensures SaveLine(t) == "D | " + [DoneFlag(t.done)] + " | " + t.name + " | " + SavePattern.Format(t.due)
  {
  }

  /** The date text is a parameter, as in ExampleCreate. */
  lemma ExampleSaveText(f: string)
    requires f == "2024-12-01 1800"
    ensures "D | " + [DoneFlag(false)] + " | " + "submit report" + " | " + f
            == "D | 0 | submit report | 2024-12-01 1800"
  {
  }

  /** Updating that task with "submit report /by 2024-12-02 0900" moves the deadline.
      The text is a parameter for the same reason as in ExampleCreate. */
  lemma ExampleUpdate(text: string)
    requires text == "submit report /by 2024-12-02 0900"
    ensures Update(DeadlineTask("submit report", false, DateTime(2024, 12, 1, 18, 0)), text)
            == Updated(DeadlineTask("submit report", false, DateTime(2024, 12, 2, 9, 0)))
  {
    ExampleUpdateText(text);
    UpdateWithSaveText(DeadlineTask("submit report", false, DateTime(2024, 12, 1, 18, 0)),
                       "submit report", DateTime(2024, 12, 2, 9, 0));
  }

  /** The update text of the example is a name, the separator and a save text (a
      parameter, as in ExampleCreate). */
  lemma ExampleUpdateText(text: string)
    requires text == "submit report /by 2024-12-02 0900"
    ensures text == "submit report" + Separator + SavePattern.Format(DateTime(2024, 12, 2, 9, 0))
  {
    ExampleFormatUpdated();
  }

  lemma ExampleFormatUpdated()
    ensures SavePattern.Format(DateTime(2024, 12, 2, 9, 0)) == "2024-12-02 0900"
  {
  }
}

=== FILE: digits.dfy ===
/** Decimal digits as java.time's number printer and parser handle them:
    ASCII '0'..'9' only, most significant digit first. */
module Digits {

  predicate IsDigit(c: char) {
    '0' <= c <= '9'
  }

  predicate AllDigits(s: string) {
    forall i :: 0 <= i < |s| ==> IsDigit(s[i])
  }

  function DigitValue(c: char): (v: nat)
    requires IsDigit(c)
    ensures v < 10
  {
    c as int - '0' as int
  }

  function DigitChar(v: nat): (c: char)
    requires v < 10
    ensures IsDigit(c) && DigitValue(c) == v
  {
    ('0' as int + v) as char
  }

  function Pow10(k: nat): (p: nat)
    ensures p >= 1
  {
    if k == 0 then 1 else 10 * Pow10(k - 1)
  }

  /** The number a digit string denotes (leading zeros allowed). */
  function Value(s: string): (v: nat)
    requires AllDigits(s)
    ensures v < Pow10(|s|)
  {
    if |s| == 0 then 0 else Value(s[..|s| - 1]) * 10 + DigitValue(s[|s| - 1])
  }

  /** The last `w` decimal digits of `n`, zero-padded on the left. */
  function Pad(n: nat, w: nat): (r: string)
    ensures |r| == w && AllDigits(r)
  {
    if w == 0 then "" else Pad(n / 10, w - 1) + [DigitChar(n % 10)]
  }

  /** Number of decimal digits needed to write `n` (at least one). */
  function Width(n: nat): (k: nat)
    ensures 1 <= k
  {
    if n < 10 then 1 else 1 + Width(n / 10)
  }

  /** `n` in decimal without padding. */
  function Decimal(n: nat): (r: string)
    ensures AllDigits(r) && |r| == Width(n)
  {
    Pad(n, Width(n))
  }

  /** Reading back a padded number gives the number when it fits. */
  lemma {:induction false} ValueOfPad(n: nat, w: nat)
    requires n < Pow10(w)
    ensures Value(Pad(n, w)) == n
  {
    if w > 0 {
      var q, d := n / 10, n % 10;
      assert n == q * 10 + d && Pow10(w) == 10 * Pow10(w - 1);
      assert q < Pow10(w - 1);
      var p := Pad(q, w - 1) + [DigitChar(d)];
      assert p == Pad(n, w);
      assert p[..|p| - 1] == Pad(q, w - 1);
      ValueOfPad(q, w - 1);
    }
  }

  /** Width(n) digits are exactly enough for `n`, and one fewer are not. */
  lemma {:induction false} WidthBounds(n: nat)
    ensures n < Pow10(Width(n))
    ensures Width(n) > 1 ==> Pow10(Width(n) - 1) <= n
  {
    if n >= 10 {
      WidthBounds(n / 10);
    }
  }

  /** Decimal is read back as the same number. */
  lemma ValueOfDecimal(n: nat)
    ensures Value(Decimal(n)) == n
  {
    WidthBounds(n);
    ValueOfPad(n, Width(n));
  }

  /** Width is monotone in the sense needed to bound it from both sides. */
  lemma {:induction false} WidthBetween(n: nat, k: nat)
    requires k >= 1
    ensures n < Pow10(k) ==> Width(n) <= k
    ensures Pow10(k - 1) <= n ==> k <= Width(n)
  {
    if n >= 10 && k > 1 {
      WidthBetween(n / 10, k - 1);
    }
  }
}

=== FILE: display_pattern.dfy ===
/** The display pattern "MMM d yyyy, h:mm a" of DeadlineTask.getDetails
    (DeadlineTask.java:32), with the English month abbreviations and AM/PM markers.
    The pattern is for people only and is never read back by the program; the
    reader below exists to show that the text loses no information. */
module DisplayPattern {
  import opened Wrappers
  import opened Digits
  import opened Calendar
  import SavePattern

  const MonthNames: seq<string> :=
    ["Jan", "Feb", "Mar", "Apr", "May", "Jun", "Jul", "Aug", "Sep", "Oct", "Nov", "Dec"]

  /** "MMM": the short English month name. */
  function MonthAbbrev(month: int): (r: string)
    requires 1 <= month <= 12
    ensures |r| == 3
  {
    MonthNames[month - 1]
  }

  /** The month a short English month name stands for. */
  function MonthOfAbbrev(a: string): (r: Option<int>)
    ensures r.Some? ==> 1 <= r.value <= 12 && MonthAbbrev(r.value) == a
    ensures r.None? ==> forall m :: 1 <= m <= 12 ==> MonthAbbrev(m) != a
  {
    if a == "Jan" then Some(1) else if a == "Feb" then Some(2)
    else if a == "Mar" then Some(3) else if a == "Apr" then Some(4)
    else if a == "May" then Some(5) else if a == "Jun" then Some(6)
    else if a == "Jul" then Some(7) else if a == "Aug" then Some(8)
    else if a == "Sep" then Some(9) else if a == "Oct" then Some(10)
    else if a == "Nov" then Some(11) else if a == "Dec" then Some(12)
    else None
  }

  /** Reading a month name back gives its month. */
  lemma MonthOfAbbrevOf(month: int)
    requires 1 <= month <= 12
    ensures MonthOfAbbrev(MonthAbbrev(month)) == Some(month)
  {
    if month <= 3 {
    } else if month <= 6 {
    } else if month <= 9 {
    } else {
    }
  }

  /** "h": the clock hour of the half day, 12 standing for 0. */
  function ClockHour(hour: int): (h: int)
    requires 0 <= hour <= 23
    ensures 1 <= h <= 12
    ensures h == 12 <==> hour == 0 || hour == 12
  {
    if hour % 12 == 0 then 12 else hour % 12
  }

  /** "a": the half-day marker. */
  function Marker(hour: int): (r: string)
    ensures r == "AM" || r == "PM"
    ensures r == "PM" <==> hour >= 12
  {
    if hour < 12 then "AM" else "PM"
  }

  /** The hour of the day a 12-hour clock reading and its marker denote. */
  function Hour24(clock: int, pm: bool): (hour: int)
    requires 1 <= clock <= 12
    ensures 0 <= hour <= 23
    ensures pm <==> hour >= 12
  {
    (clock % 12) + (if pm then 12 else 0)
  }

  /** The 12-hour reading with its marker loses nothing of the 24-hour hour. */
  lemma ClockHourRoundTrip(hour: int)
    requires 0 <= hour <= 23
    ensures Hour24(ClockHour(hour), Marker(hour) == "PM") == hour
  {
  }

  /** "h:mm a": the time of day on the 12-hour clock. */
  function TimeText(hour: int, minute: int): string
    requires 0 <= hour <= 23 && 0 <= minute <= 59
  {
    Decimal(ClockHour(hour)) + (":" + (Pad(minute, 2) + (" " + Marker(hour))))
  }

  /** LocalDateTime.format with the display pattern. */
  function Display(d: DateTime): (r: string)
    requires Valid(d)
    ensures |r| >= 3 && r[..3] == MonthAbbrev(d.month)
    ensures |r| >= 2 && r[|r| - 2..] == Marker(d.hour)
  {
    MonthAbbrev(d.month) + (" " + (Decimal(d.day) + (" " + (SavePattern.YearText(d.year)
      + (", " + TimeText(d.hour, d.minute))))))
  }

  /** Number of digits at the start of `s`. */
  function LeadingDigits(s: string): (k: nat)
    ensures k <= |s| && AllDigits(s[..k]) && (k == |s| || !IsDigit(s[k]))
  {
    if |s| > 0 && IsDigit(s[0]) then
      var k := 1 + LeadingDigits(s[1..]);
      assert s[..k] == [s[0]] + s[1..][..k - 1];
      k
    else 0
  }

  /** A run of digits followed by a non-digit (or the end) is read whole. */
  lemma {:induction false} LeadingDigitsOf(x: string, rest: string)
    requires AllDigits(x) && (rest == "" || !IsDigit(rest[0]))
    ensures LeadingDigits(x + rest) == |x|
  {
    if |x| > 0 {
      assert (x + rest)[1..] == x[1..] + rest;
      LeadingDigitsOf(x[1..], rest);
    }
  }

  /** Reads a non-empty run of digits that `sep` follows; yields its value and the
      text after `sep`. */
  function ReadNumberThen(s: string, sep: string): (r: Option<(nat, string)>)
  {
    var k := LeadingDigits(s);
    if k == 0 || k + |sep| > |s| || s[k..k + |sep|] != sep then None
    else Some((Value(s[..k]), s[k + |sep|..]))
  }

  /** ReadNumberThen on positions: `k` digits, then `sep`. */
  lemma ReadNumberThenAt(s: string, sep: string, k: nat)
    requires LeadingDigits(s) == k > 0 && k + |sep| <= |s| && s[k..k + |sep|] == sep
    ensures ReadNumberThen(s, sep) == Some((Value(s[..k]), s[k + |sep|..]))
  {
  }

  lemma ReadNumberThenOf(x: string, sep: string, rest: string)
    requires AllDigits(x) && x != "" && sep != "" && !IsDigit(sep[0])
    ensures ReadNumberThen(x + (sep + rest), sep) == Some((Value(x), rest))
  {
    var t := sep + rest;
    var s := x + t;
    assert t[0] == sep[0];
    LeadingDigitsOf(x, t);
    var k := |x|;
    assert s[k..k + |sep|] == sep;
    ReadNumberThenAt(s, sep, k);
    assert s[..k] == x;
    assert s[k + |sep|..] == rest;
  }

  /** Reads "h:mm a" back. */
  function ReadTime(s: string): (r: Option<(int, int)>)
    ensures r.Some? ==> 0 <= r.value.0 <= 23 && 0 <= r.value.1 < 100
  {
    match ReadNumberThen(s, ":")
    case None => None
    case Some((clock, t)) =>
      if |t| != 5 || t[2] != ' ' || !IsDigit(t[0]) || !IsDigit(t[1]) || !(1 <= clock <= 12)
         || (t[3..] != "AM" && t[3..] != "PM")
      then None
      else Some((Hour24(clock, t[3..] == "PM"), SavePattern.Two(t[0], t[1])))
  }

  /** ReadTime on its parts: the clock hour read before ':' and the text after it. */
  lemma ReadTimeAt(s: string, clock: int, t: string)
    requires ReadNumberThen(s, ":") == Some((clock, t))
    requires |t| == 5 && t[2] == ' ' && IsDigit(t[0]) && IsDigit(t[1]) && 1 <= clock <= 12
    requires t[3..] == "AM" || t[3..] == "PM"
    ensures ReadTime(s) == Some((Hour24(clock, t[3..] == "PM"), SavePattern.Two(t[0], t[1])))
  {
  }

  /** The text after ':' in "h:mm a": two minute digits, a space, the marker. */
  lemma TimeTail(hour: int, minute: int)
    requires 0 <= hour <= 23 && 0 <= minute <= 59
    ensures var t := Pad(minute, 2) + (" " + Marker(hour));
      |t| == 5 && t[2] == ' ' && t[0] == Pad(minute, 2)[0] && t[1] == Pad(minute, 2)[1]
      && t[3..] == Marker(hour)
  {
  }

  lemma ReadTimeText(hour: int, minute: int)
    requires 0 <= hour <= 23 && 0 <= minute <= 59
    ensures ReadTime(TimeText(hour, minute)) == Some((hour, minute))
  {
    var c := Decimal(ClockHour(hour));
    var t := Pad(minute, 2) + (" " + Marker(hour));
    ReadNumberThenOf(c, ":", t);
    ValueOfDecimal(ClockHour(hour));
    TimeTail(hour, minute);
    ReadTimeAt(TimeText(hour, minute), ClockHour(hour), t);
    SavePattern.TwoOfPad(minute);
    ClockHourRoundTrip(hour);
  }

  /** The digits of a year field, without the sign a long year carries. */
  function YearDigits(s: string): string {
    if |s| > 0 && s[0] == '+' then s[1..] else s
  }

  /** Reads "yyyy, h:mm a" back. */
  function ReadYearTime(s: string): (r: Option<(int, int, int)>)
  {
    match ReadNumberThen(YearDigits(s), ", ")
    case None => None
    case Some((year, t)) =>
      match ReadTime(t)
      case None => None
      case Some((hour, minute)) => Some((year, hour, minute))
  }

  /** ReadYearTime on its parts: the year read before ", " and the time after it. */
  lemma ReadYearTimeAt(s: string, year: int, t: string, hour: int, minute: int)
    requires ReadNumberThen(YearDigits(s), ", ") == Some((year, t))
    requires ReadTime(t) == Some((hour, minute))
    ensures ReadYearTime(s) == Some((year, hour, minute))
  {
  }

  /** The year field is read back up to the ", " that follows it. */
  lemma ReadYearField(year: int, rest: string)
    requires 1 <= year <= MaxYear
    ensures var s := SavePattern.YearText(year) + (", " + rest);
      ReadNumberThen(YearDigits(s), ", ") == Some((year, rest))
  {
    var y := SavePattern.YearText(year);
    var s := y + (", " + rest);
    if year <= 9999 {
      assert YearDigits(s) == s;
      ReadNumberThenOf(y, ", ", rest);
      ValueOfPad(year, 4);
    } else {
      assert YearDigits(s) == Decimal(year) + (", " + rest);
      ReadNumberThenOf(Decimal(year), ", ", rest);
      ValueOfDecimal(year);
    }
  }

  lemma ReadYearTimeText(year: int, hour: int, minute: int)
    requires 1 <= year <= MaxYear && 0 <= hour <= 23 && 0 <= minute <= 59
    ensures ReadYearTime(SavePattern.YearText(year) + (", " + TimeText(hour, minute)))
            == Some((year, hour, minute))
  {
    var time := TimeText(hour, minute);
    ReadYearField(year, time);
    ReadTimeText(hour, minute);
    ReadYearTimeAt(SavePattern.YearText(year) + (", " + time), year, time, hour, minute);
  }

  /** Reads a displayed date-time back. */
  function ReadDisplay(s: string): (r: Option<DateTime>)
  {
    if |s| < 4 || s[3] != ' ' then None
    else
      match MonthOfAbbrev(s[..3])
      case None => None
      case Some(month) =>
        match ReadNumberThen(s[4..], " ")
        case None => None
        case Some((day, rest)) =>
          match ReadYearTime(rest)
          case None => None
          case Some((year, hour, minute)) => Some(DateTime(year, month, day, hour, minute))
  }

  /** ReadDisplay on its parts: month name, day, then year and time. */
  lemma ReadDisplayAt(s: string, month: int, day: int, rest: string, year: int, hour: int, minute: int)
    requires |s| >= 4 && s[3] == ' ' && MonthOfAbbrev(s[..3]) == Some(month)
    requires ReadNumberThen(s[4..], " ") == Some((day, rest))
    requires ReadYearTime(rest) == Some((year, hour, minute))
    ensures ReadDisplay(s) == Some(DateTime(year, month, day, hour, minute))
  {
  }

  /** The displayed text is the month name, a space, the day, a space, and the rest. */
  lemma DisplayParts(d: DateTime)
    requires Valid(d)
    ensures var s, rest := Display(d), SavePattern.YearText(d.year) + (", " + TimeText(d.hour, d.minute));
      |s| >= 4 && s[..3] == MonthAbbrev(d.month) && s[3] == ' '
      && s[4..] == Decimal(d.day) + (" " + rest)
  {
    var rest := SavePattern.YearText(d.year) + (", " + TimeText(d.hour, d.minute));
    MonthThen(MonthAbbrev(d.month), Decimal(d.day) + (" " + rest));
  }

  /** A three-letter month name, a space, and the rest. */
  lemma MonthThen(m: string, rest: string)
    requires |m| == 3
    ensures var s := m + (" " + rest); |s| >= 4 && s[..3] == m && s[3] == ' ' && s[4..] == rest
  {
    var s := m + (" " + rest);
    assert s[4..] == rest;
  }

  /** The displayed text determines the date-time: reading it back gives it again. */
  lemma ReadDisplayRoundTrip(d: DateTime)
    requires Valid(d)
    ensures ReadDisplay(Display(d)) == Some(d)
  {
    var rest := SavePattern.YearText(d.year) + (", " + TimeText(d.hour, d.minute));
    var s := Display(d);
    DisplayParts(d);
    MonthOfAbbrevOf(d.month);
    ReadNumberThenOf(Decimal(d.day), " ", rest);
    ValueOfDecimal(d.day);
    ReadYearTimeText(d.year, d.hour, d.minute);
    ReadDisplayAt(s, d.month, d.day, rest, d.year, d.hour, d.minute);
  }

  /** Two different date-times are never displayed alike. */
  lemma DisplayInjective(a: DateTime, b: DateTime)
    requires Valid(a) && Valid(b) && Display(a) == Display(b)
    ensures a == b
  {
    ReadDisplayRoundTrip(a);
    ReadDisplayRoundTrip(b);
  }

  /** Hour 0 is shown as 12 AM. */
  lemma ExampleMidnightTime()
    ensures TimeText(0, 5) == "12:05 AM"
  {
    assert Decimal(12) == "12";
  }
}

=== FILE: literal_split.dfy ===
/** java.lang.String.split(regex) with limit 0, for a separator that contains no
    regular-expression metacharacters (so the regex matches the separator literally):
    matches are found left to right without overlapping, the text between them is
    returned in order, trailing empty strings are removed, and a text with no match
    at all is returned whole. */
module LiteralSplit {
  import opened Wrappers

  /** `sep` occurs in `s` starting at index `i`. */
  predicate Occurs(s: string, sep: string, i: int) {
    0 <= i && i + |sep| <= |s| && s[i..i + |sep|] == sep
  }

  /** No occurrence of `sep` in `s` starts at an index in [lo, hi). */
  predicate NoneBetween(s: string, sep: string, lo: int, hi: int) {
    forall i :: lo <= i < hi ==> !Occurs(s, sep, i)
  }

  /** The first occurrence of `sep` in `s` at or after `from` (String.indexOf). */
  function IndexOf(s: string, sep: string, from: nat): (r: Option<nat>)
    requires |sep| > 0 && from <= |s|
    ensures r.Some? ==> from <= r.value && r.value + |sep| <= |s|
    decreases |s| - from
  {
    if from + |sep| > |s| then None
    else if s[from..from + |sep|] == sep then Some(from)
    else IndexOf(s, sep, from + 1)
  }

  /** IndexOf reports a match with none before it, or that there is no match at all. */
  lemma {:induction false} IndexOfSpec(s: string, sep: string, from: nat)
    requires |sep| > 0 && from <= |s|
    ensures var r := IndexOf(s, sep, from);
      (r.Some? ==> Occurs(s, sep, r.value) && NoneBetween(s, sep, from, r.value))
      && (r.None? ==> NoneBetween(s, sep, from, |s|))
    decreases |s| - from
  {
    if from + |sep| > |s| {
    } else if s[from..from + |sep|] == sep {
    } else {
      IndexOfSpec(s, sep, from + 1);
    }
  }

  /** Pieces joined back with the separator between them. */
  function Join(ps: seq<string>, sep: string): string {
    if |ps| == 0 then ""
    else if |ps| == 1 then ps[0]
    else ps[0] + sep + Join(ps[1..], sep)
  }

  /** Occurrences inside a slice are occurrences in the whole text. */
  lemma OccursInSlice(s: string, sep: string, lo: int, hi: int, j: int)
    requires 0 <= lo <= hi <= |s|
    requires Occurs(s[lo..hi], sep, j)
    ensures Occurs(s, sep, lo + j)
  {
    var a := s[lo..hi][j..j + |sep|];
    var b := s[lo + j..lo + j + |sep|];
    assert forall k :: 0 <= k < |a| ==> a[k] == b[k];
  }

  /** A stretch of the text free of matches has no match inside it either. */
  lemma NoneInSlice(s: string, sep: string, lo: int, hi: int)
    requires 0 <= lo <= hi <= |s|
    requires NoneBetween(s, sep, lo, hi)
    ensures NoneBetween(s[lo..hi], sep, 0, hi - lo)
  {
    forall j | 0 <= j < hi - lo && Occurs(s[lo..hi], sep, j)
      ensures false
    {
      OccursInSlice(s, sep, lo, hi, j);
    }
  }

  /** The text from `from` on, cut at every match; nothing is dropped yet. */
  function Pieces(s: string, sep: string, from: nat): (r: seq<string>)
    requires |sep| > 0 && from <= |s|
    ensures |r| >= 1 && r[0] <= s[from..]
    decreases |s| - from
  {
    match IndexOf(s, sep, from)
    case None => [s[from..]]
    case Some(i) => [s[from..i]] + Pieces(s, sep, i + |sep|)
  }

  /** One cutting step, at the match IndexOf finds. */
  lemma PiecesStep(s: string, sep: string, from: nat, i: nat)
    requires |sep| > 0 && from <= |s|
    requires IndexOf(s, sep, from) == Some(i)
    ensures Pieces(s, sep, from) == [s[from..i]] + Pieces(s, sep, i + |sep|)
  {
  }

  /** Nothing is lost by cutting: the pieces joined back with the separator give the text. */
  lemma {:induction false} PiecesJoin(s: string, sep: string, from: nat)
    requires |sep| > 0 && from <= |s|
    ensures Join(Pieces(s, sep, from), sep) == s[from..]
    decreases |s| - from
  {
    match IndexOf(s, sep, from)
    case None =>
      assert Pieces(s, sep, from) == [s[from..]];
      assert Join([s[from..]], sep) == s[from..];
    case Some(i) =>
      var rest := Pieces(s, sep, i + |sep|);
      IndexOfSpec(s, sep, from);
      PiecesStep(s, sep, from, i);
      PiecesJoin(s, sep, i + |sep|);
      var r := [s[from..i]] + rest;
      assert r[1..] == rest;
      assert Join(r, sep) == s[from..i] + sep + Join(rest, sep);
      assert s[i..i + |sep|] == sep;
      SliceAround(s, from, i, i + |sep|);
      calc {
        Join(Pieces(s, sep, from), sep);
        s[from..i] + sep + Join(rest, sep);
        s[from..i] + s[i..i + |sep|] + s[i + |sep|..];
        s[from..];
      }
  }

  /** A suffix of the text is the concatenation of three consecutive stretches. */
  lemma SliceAround(s: string, a: nat, b: nat, c: nat)
    requires a <= b <= c <= |s|
    ensures s[a..] == s[a..b] + s[b..c] + s[c..]
  {
  }

  /** Every match is used as a cut: no piece contains the separator. */
  lemma {:induction false} PiecesFree(s: string, sep: string, from: nat)
    requires |sep| > 0 && from <= |s|
    ensures AllFree(Pieces(s, sep, from), sep)
    decreases |s| - from
  {
    match IndexOf(s, sep, from)
    case None =>
      IndexOfSpec(s, sep, from);
      NoneInSlice(s, sep, from, |s|);
      assert s[from..] == s[from..|s|];
      assert Pieces(s, sep, from) == [s[from..]];
    case Some(i) =>
      var rest := Pieces(s, sep, i + |sep|);
      IndexOfSpec(s, sep, from);
      PiecesStep(s, sep, from, i);
      PiecesFree(s, sep, i + |sep|);
      NoneInSlice(s, sep, from, i);
      var r := [s[from..i]] + rest;
      forall k | 0 <= k < |r|
        ensures NoneBetween(r[k], sep, 0, |r[k]|)
      {
        if k > 0 {
          assert r[k] == rest[k - 1];
        }
      }
  }

  /** No piece of `ps` contains the separator. */
  predicate AllFree(ps: seq<string>, sep: string) {
    forall k :: 0 <= k < |ps| ==> NoneBetween(ps[k], sep, 0, |ps[k]|)
  }

  /** Removes the empty strings at the end, as a limit-0 split does. */
  function DropTrailingEmpty(ps: seq<string>): (r: seq<string>)
    ensures |r| <= |ps| && r == ps[..|r|]
    ensures |r| == 0 || r[|r| - 1] != ""
    ensures forall k :: |r| <= k < |ps| ==> ps[k] == ""
  {
    if |ps| > 0 && ps[|ps| - 1] == "" then DropTrailingEmpty(ps[..|ps| - 1]) else ps
  }

  /** `k` copies of the separator. */
  function Rep(sep: string, k: nat): (r: string)
    ensures |r| == k * |sep|
  {
    if k == 0 then "" else sep + Rep(sep, k - 1)
  }

  /** `t` is the separator repeated some number of times. */
  predicate OnlySeparators(t: string, sep: string)
    requires |sep| > 0
    decreases |t|
  {
    |t| == 0 || (|t| >= |sep| && t[..|sep|] == sep && OnlySeparators(t[|sep|..], sep))
  }

  lemma {:induction false} RepOnlySeparators(sep: string, k: nat)
    requires |sep| > 0
    ensures OnlySeparators(Rep(sep, k), sep)
  {
    if k > 0 {
      var t := Rep(sep, k);
      assert t[..|sep|] == sep && t[|sep|..] == Rep(sep, k - 1);
      RepOnlySeparators(sep, k - 1);
    }
  }

  /** Empty pieces joined are only the separators between them. */
  lemma {:induction false} JoinEmpties(ps: seq<string>, sep: string)
    requires |ps| >= 1 && forall k :: 0 <= k < |ps| ==> ps[k] == ""
    ensures Join(ps, sep) == Rep(sep, |ps| - 1)
  {
    if |ps| > 1 {
      JoinEmpties(ps[1..], sep);
      assert ps[0] == "";
      assert Join(ps, sep) == "" + sep + Rep(sep, |ps| - 2);
    }
  }

  /** Pieces that are empty from index `n` on contribute only separators. */
  lemma {:induction false} JoinDropped(ps: seq<string>, sep: string, n: nat)
    requires 1 <= n <= |ps| && forall k :: n <= k < |ps| ==> ps[k] == ""
    ensures Join(ps, sep) == Join(ps[..n], sep) + Rep(sep, |ps| - n)
    decreases n
  {
    if n == 1 {
      assert Join(ps[..1], sep) == ps[0];
      if |ps| > 1 {
        JoinEmpties(ps[1..], sep);
        assert Join(ps, sep) == ps[0] + sep + Rep(sep, |ps| - 2);
      }
    } else {
      JoinDropped(ps[1..], sep, n - 1);
      assert ps[1..][..n - 1] == ps[..n][1..];
      assert Join(ps[..n], sep) == ps[0] + sep + Join(ps[..n][1..], sep);
    }
  }

  /** What dropping the trailing empty pieces removes from the joined text: only
      separators. */
  lemma DropRemainder(ps: seq<string>, sep: string)
    requires |ps| >= 1
    ensures var r := DropTrailingEmpty(ps);
      Join(ps, sep) == Join(r, sep) + Rep(sep, |ps| - (if |r| == 0 then 1 else |r|))
  {
    var r := DropTrailingEmpty(ps);
    if |r| == 0 {
      JoinEmpties(ps, sep);
    } else {
      JoinDropped(ps, sep, |r|);
    }
  }

  /** String.split(sep) for a literal separator: the parts, joined back with the
      separator, are the text up to a run of separators at its end, and the last part
      is not empty unless the text had no match at all. The first part ends where the
      leftmost match starts. */
  function Split(s: string, sep: string): (r: seq<string>)
    requires |sep| > 0
    ensures |r| > 0 ==> r[0] <= s
    ensures IndexOf(s, sep, 0).Some? && |r| > 0 ==> r[0] == s[..IndexOf(s, sep, 0).value]
    ensures AllFree(r, sep)
    ensures NoneBetween(s, sep, 0, |s|) ==> r == [s]
    ensures Join(r, sep) <= s && OnlySeparators(s[|Join(r, sep)|..], sep)
    ensures r == [s] || |r| == 0 || r[|r| - 1] != ""
  {
    IndexOfSpec(s, sep, 0);
    if IndexOf(s, sep, 0).None? then
      assert Join([s], sep) == s;
      [s]
    else
      SplitCutFree(s, sep);
      SplitCutJoin(s, sep);
      DropTrailingEmpty(Pieces(s, sep, 0))
  }

  /** One step of Split on a text with a match: the pieces with trailing empty ones
      dropped. */
  lemma SplitOfPieces(s: string, sep: string)
    requires |sep| > 0 && IndexOf(s, sep, 0).Some?
    ensures Split(s, sep) == DropTrailingEmpty(Pieces(s, sep, 0))
  {
  }

  /** The parts of a text with a match contain no separator, and the first is the text
      before the leftmost match. */
  lemma SplitCutFree(s: string, sep: string)
    requires |sep| > 0 && IndexOf(s, sep, 0).Some?
    ensures var r := DropTrailingEmpty(Pieces(s, sep, 0));
      (|r| > 0 ==> r[0] == s[..IndexOf(s, sep, 0).value]) && AllFree(r, sep)
  {
    var ps := Pieces(s, sep, 0);
    PiecesStep(s, sep, 0, IndexOf(s, sep, 0).value);
    PiecesFree(s, sep, 0);
    var r := DropTrailingEmpty(ps);
    assert forall k :: 0 <= k < |r| ==> r[k] == ps[k];
  }

  /** The parts of a text with a match, joined back, leave only separators over. */
  lemma SplitCutJoin(s: string, sep: string)
    requires |sep| > 0
    ensures var r := DropTrailingEmpty(Pieces(s, sep, 0));
      Join(r, sep) <= s && OnlySeparators(s[|Join(r, sep)|..], sep)
  {
    var ps := Pieces(s, sep, 0);
    PiecesJoin(s, sep, 0);
    assert s[0..] == s;
    var r := DropTrailingEmpty(ps);
    DropRemainder(ps, sep);
    var k := |ps| - (if |r| == 0 then 1 else |r|);
    RepOnlySeparators(sep, k);
    PrefixOfConcat(s, Join(r, sep), Rep(sep, k));
  }

  lemma PrefixOfConcat(s: string, a: string, b: string)
    requires s == a + b
    ensures a <= s && s[|a|..] == b
  {
  }

  /** IndexOf finds exactly the first match. */
  lemma {:induction false} IndexOfFirst(s: string, sep: string, from: nat, i: nat)
    requires |sep| > 0 && from <= i <= |s|
    requires Occurs(s, sep, i) && NoneBetween(s, sep, from, i)
    ensures IndexOf(s, sep, from) == Some(i)
    decreases i - from
  {
    if from < i {
      assert !Occurs(s, sep, from);
      IndexOfFirst(s, sep, from + 1, i);
    }
  }

  /** Without a further match the rest of the text is the last piece. */
  lemma PiecesAtEnd(s: string, sep: string, from: nat)
    requires |sep| > 0 && from <= |s|
    requires NoneBetween(s, sep, from, |s|)
    ensures Pieces(s, sep, from) == [s[from..]]
  {
    IndexOfSpec(s, sep, from);
  }

  /** Cutting at the first match: the first piece ends where the match starts and
      cutting resumes right after the match. */
  lemma PiecesAtFirst(s: string, sep: string, from: nat, i: nat)
    requires |sep| > 0 && from <= i <= |s|
    requires Occurs(s, sep, i) && NoneBetween(s, sep, from, i)
    ensures Pieces(s, sep, from) == [s[from..i]] + Pieces(s, sep, i + |sep|)
  {
    IndexOfFirst(s, sep, from, i);
    PiecesStep(s, sep, from, i);
  }

  /** Exactly one match, with text after it: the two sides, in order. */
  lemma SplitOne(n: string, sep: string, d: string)
    requires |sep| > 0 && d != ""
    requires NoneBetween(n + sep + d, sep, 0, |n|)
    requires NoneBetween(n + sep + d, sep, |n| + |sep|, |n + sep + d|)
    ensures Split(n + sep + d, sep) == [n, d]
  {
    var s := n + sep + d;
    assert s[|n|..|n| + |sep|] == sep;
    assert s[..|n|] == n && s[|n| + |sep|..] == d;
    SplitAtOnly(s, sep, |n|);
  }

  /** The same, stated on positions: the only match at `i`, with text after it. */
  lemma SplitAtOnly(s: string, sep: string, i: nat)
    requires |sep| > 0 && i + |sep| < |s|
    requires Occurs(s, sep, i) && NoneBetween(s, sep, 0, i)
    requires NoneBetween(s, sep, i + |sep|, |s|)
    ensures Split(s, sep) == [s[..i], s[i + |sep|..]]
  {
    IndexOfFirst(s, sep, 0, i);
    PiecesAtFirst(s, sep, 0, i);
    PiecesAtEnd(s, sep, i + |sep|);
    var ps := Pieces(s, sep, 0);
    assert ps == [s[..i], s[i + |sep|..]];
    assert ps[1] != "";
    assert DropTrailingEmpty(ps) == ps;
    SplitOfPieces(s, sep);
  }

  /** The only match at the very end: the trailing empty piece is dropped, and so
      is the leading one when nothing precedes the separator. */
  lemma SplitEndsWithSeparator(n: string, sep: string)
    requires |sep| > 0
    requires NoneBetween(n + sep, sep, 0, |n|)
    ensures Split(n + sep, sep) == if n == "" then [] else [n]
  {
    var s := n + sep;
    assert s[|n|..|n| + |sep|] == sep;
    PiecesAtFirst(s, sep, 0, |n|);
    assert s[..|n|] == n;
    PiecesAtEnd(s, sep, |n| + |sep|);
  }

  /** Dropping trailing empty strings keeps every piece up to a non-empty one. */
  lemma DropKeepsNonEmpty(ps: seq<string>, i: nat)
    requires i < |ps| && ps[i] != ""
    ensures var r := DropTrailingEmpty(ps); i < |r| && r[..i + 1] == ps[..i + 1]
  {
  }

  /** The first two pieces lie before the first match and between the first two. */
  lemma PiecesFirstTwo(s: string, sep: string, i: nat, k: nat)
    requires |sep| > 0 && i + |sep| <= k <= |s|
    requires Occurs(s, sep, i) && NoneBetween(s, sep, 0, i)
    requires Occurs(s, sep, k) && NoneBetween(s, sep, i + |sep|, k)
    ensures var ps := Pieces(s, sep, 0); |ps| >= 2 && ps[0] == s[..i] && ps[1] == s[i + |sep|..k]
  {
    PiecesAtFirst(s, sep, i + |sep|, k);
    var rest := Pieces(s, sep, i + |sep|);
    assert rest[0] == s[i + |sep|..k];
    PiecesAtFirst(s, sep, 0, i);
    var ps := Pieces(s, sep, 0);
    assert ps == [s[..i]] + rest;
    assert ps[1] == rest[0];
  }

  /** With two or more matches only the first two pieces are fixed by the text up
      to the second match; what follows it does not change them. */
  lemma SplitFirstTwo(n: string, sep: string, d: string, rest: string)
    requires |sep| > 0 && d != ""
    requires NoneBetween(n + sep + d + sep + rest, sep, 0, |n|)
    requires NoneBetween(n + sep + d + sep + rest, sep, |n| + |sep|, |n| + |sep| + |d|)
    ensures var r := Split(n + sep + d + sep + rest, sep); |r| >= 2 && r[0] == n && r[1] == d
  {
    var s := n + sep + d + sep + rest;
    var j := |n| + |sep|;
    var k := j + |d|;
    assert s[|n|..j] == sep && s[..|n|] == n;
    assert s[k..k + |sep|] == sep && s[j..k] == d;
    PiecesFirstTwo(s, sep, |n|, k);
    DropKeepsNonEmpty(Pieces(s, sep, 0), 1);
  }

  /** Cutting from a position where no match starts gives a non-empty first piece. */
  lemma PiecesNonEmptyHead(s: string, sep: string, k: nat)
    requires |sep| > 0 && k < |s| && !Occurs(s, sep, k)
    ensures Pieces(s, sep, k)[0] != ""
  {
    IndexOfSpec(s, sep, k);
    match IndexOf(s, sep, k)
    case None =>
    case Some(m) => PiecesStep(s, sep, k, m);
  }

  /** The pieces around two matches back to back at `i` and `i + |sep|`, with no
      match right after them: the text before, an empty piece, a non-empty one. */
  lemma PiecesEmptyAt(s: string, sep: string, i: nat)
    requires |sep| > 0 && i + 2 * |sep| < |s|
    requires Occurs(s, sep, i) && Occurs(s, sep, i + |sep|) && NoneBetween(s, sep, 0, i)
    requires !Occurs(s, sep, i + 2 * |sep|)
    ensures var ps := Pieces(s, sep, 0); |ps| >= 3 && ps[0] == s[..i] && ps[1] == "" && ps[2] != ""
  {
    PiecesAtFirst(s, sep, 0, i);
    PiecesEmptyHead(s, sep, i + |sep|);
    ConsFirstThree(Pieces(s, sep, 0), s[..i], Pieces(s, sep, i + |sep|));
  }

  /** The first three elements of a sequence with one element put in front. */
  lemma ConsFirstThree(ps: seq<string>, a: string, mid: seq<string>)
    requires ps == [a] + mid && |mid| >= 2
    ensures |ps| >= 3 && ps[0] == a && ps[1] == mid[0] && ps[2] == mid[1]
  {
  }

  /** Cutting from a match with no match right after it: an empty piece, then a
      non-empty one. */
  lemma PiecesEmptyHead(s: string, sep: string, j: nat)
    requires |sep| > 0 && j + |sep| < |s|
    requires Occurs(s, sep, j) && !Occurs(s, sep, j + |sep|)
    ensures var m := Pieces(s, sep, j); |m| >= 2 && m[0] == "" && m[1] != ""
  {
    var mid, tail := Pieces(s, sep, j), Pieces(s, sep, j + |sep|);
    PiecesAtFirst(s, sep, j, j);
    PiecesNonEmptyHead(s, sep, j + |sep|);
    assert |mid| == 1 + |tail| && mid[0] == "" && mid[1] == tail[0];
  }

  /** Split keeps that empty piece, because a non-empty one follows it. */
  lemma SplitEmptyAt(s: string, sep: string, i: nat)
    requires |sep| > 0 && i + 2 * |sep| < |s|
    requires Occurs(s, sep, i) && Occurs(s, sep, i + |sep|) && NoneBetween(s, sep, 0, i)
    requires !Occurs(s, sep, i + 2 * |sep|)
    ensures var r := Split(s, sep); |r| >= 3 && r[0] == s[..i] && r[1] == ""
  {
    var ps := Pieces(s, sep, 0);
    PiecesEmptyAt(s, sep, i);
    DropKeepsNonEmpty(ps, 2);
    IndexOfFirst(s, sep, 0, i);
    SplitOfPieces(s, sep);
    var r := DropTrailingEmpty(ps);
    assert r[..3] == ps[..3];
    assert r[0] == ps[0] && r[1] == ps[1];
  }

  /** Two matches back to back leave an empty part between them, which is kept when
      a text that does not start with the separator follows the second. */
  lemma SplitEmptyBetween(n: string, sep: string, rest: string)
    requires |sep| > 0 && rest != "" && !(sep <= rest)
    requires NoneBetween(n + sep + sep + rest, sep, 0, |n|)
    ensures var r := Split(n + sep + sep + rest, sep); |r| >= 3 && r[0] == n && r[1] == ""
  {
    var s := n + sep + sep + rest;
    var j := |n| + |sep|;
    var k := j + |sep|;
    assert s[|n|..j] == sep && s[j..k] == sep && s[..|n|] == n;
    assert !Occurs(s, sep, k) by {
      if k + |sep| <= |s| {
        assert s[k..k + |sep|] == rest[..|sep|];
      }
    }
    SplitEmptyAt(s, sep, |n|);
  }

  /** A match inside a prefix of the text is a match in the text, and a match in
      the text that ends inside the prefix is a match in the prefix. */
  lemma OccursPrefix(p: string, s: string, sep: string, i: int)
    requires p <= s && 0 <= i && i + |sep| <= |p|
    ensures Occurs(p, sep, i) <==> Occurs(s, sep, i)
  {
    assert p[i..i + |sep|] == s[i..i + |sep|];
  }

  /** A text without matches in a stretch has none there in any prefix either. */
  lemma NoneBetweenToPrefix(p: string, s: string, sep: string, lo: int, hi: int)
    requires p <= s && NoneBetween(s, sep, lo, hi)
    ensures NoneBetween(p, sep, lo, hi)
  {
    forall i | lo <= i < hi && Occurs(p, sep, i)
      ensures Occurs(s, sep, i)
    {
      OccursPrefix(p, s, sep, i);
    }
  }

  /** A prefix without matches in a stretch rules them out in the whole text too,
      for matches that would end inside the prefix. */
  lemma NoneBetweenFromPrefix(p: string, s: string, sep: string, lo: int, hi: int)
    requires p <= s && hi + |sep| <= |p| + 1 && NoneBetween(p, sep, lo, hi)
    ensures NoneBetween(s, sep, lo, hi)
  {
    forall i | lo <= i < hi && 0 <= i
      ensures !Occurs(s, sep, i)
    {
      OccursPrefix(p, s, sep, i);
    }
  }
}

=== FILE: save_pattern.dfy ===
/** The save pattern "yyyy-MM-dd HHmm" of DeadlineTask (DeadlineTask.java:10, :43), as
    java.time's DateTimeFormatter.ofPattern builds it: strict parsing, SMART resolving.

    The model splits reading a text in two steps: Lex checks the characters against
    the pattern and collects raw field numbers, Resolve turns the raw fields into a
    date-time or rejects them. java.time draws the line between its parser and its
    resolver elsewhere for a few texts (a leading '-' before the year, a year beyond
    the 64-bit range), and both reject those texts, so the result of Parse is the same. */
module SavePattern {
  import opened Wrappers
  import opened Digits
  import opened Calendar

  /** Raw numbers read from the five numeric fields, before any range check. */
  datatype RawFields = RawFields(year: nat, month: nat, day: nat, hour: nat, minute: nat)

  /** Every character "yyyy-MM-dd HHmm" can print: never a '|'. */
  predicate PatternChar(c: char) {
    IsDigit(c) || c == '-' || c == ' ' || c == '+'
  }

  /** "yyyy": year-of-era with at least four digits; a year needing more digits
      than that is printed with a leading '+'. */
  function YearText(year: nat): (r: string)
    ensures year <= 9999 ==> |r| == 4 && AllDigits(r)
    ensures year > 9999 ==> 6 <= |r| && r[0] == '+' && AllDigits(r[1..])
    ensures year <= MaxYear ==> |r| <= 10
    ensures Width(year) <= 19 ==> |r| <= 20
  {
    if year <= 9999 then Pad(year, 4)
    else
      WidthBetween(year, 5);
      WidthBetween(year, 9);
      "+" + Decimal(year)
  }

  /** "-MM-dd HHmm": the fixed-width tail after the year. */
  function TailText(month: nat, day: nat, hour: nat, minute: nat): (r: string)
    ensures |r| == 11
  {
    "-" + Pad(month, 2) + "-" + Pad(day, 2) + " " + Pad(hour, 2) + Pad(minute, 2)
  }

  /** LocalDateTime.format with the save pattern. */
  function Format(d: DateTime): (r: string)
    requires Valid(d)
    ensures 15 <= |r| <= 21
    ensures |r| == 15 <==> d.year <= 9999
    ensures forall i :: 0 <= i < |r| ==> PatternChar(r[i])
  {
    YearText(d.year) + TailText(d.month, d.day, d.hour, d.minute)
  }

  /** Strict lexing of the year field: exactly four digits without a sign, or a
      '+' followed by five to nineteen digits. */
  function LexYear(y: string): (r: Option<nat>)
    ensures r.Some? ==> (|y| == 4 && AllDigits(y)) || (6 <= |y| <= 20 && y[0] == '+')
  {
    if |y| == 4 && AllDigits(y) then Some(Value(y))
    else if 6 <= |y| <= 20 && y[0] == '+' && AllDigits(y[1..]) then Some(Value(y[1..]))
    else None
  }

  /** Two adjacent digit characters as a number. */
  function Two(a: char, b: char): (v: nat)
    requires IsDigit(a) && IsDigit(b)
    ensures v < 100
  {
    DigitValue(a) * 10 + DigitValue(b)
  }

  /** Strict lexing of "-MM-dd HHmm". */
  function LexTail(t: string): (r: Option<(nat, nat, nat, nat)>)
    ensures r.Some? ==> |t| == 11 && t[0] == '-' && t[3] == '-' && t[6] == ' '
    ensures r.Some? ==> r.value.0 < 100 && r.value.1 < 100 && r.value.2 < 100 && r.value.3 < 100
  {
    if |t| == 11 && t[0] == '-' && t[3] == '-' && t[6] == ' '
       && IsDigit(t[1]) && IsDigit(t[2]) && IsDigit(t[4]) && IsDigit(t[5])
       && IsDigit(t[7]) && IsDigit(t[8]) && IsDigit(t[9]) && IsDigit(t[10])
    then Some((Two(t[1], t[2]), Two(t[4], t[5]), Two(t[7], t[8]), Two(t[9], t[10])))
    else None
  }

  /** The parse step: the whole text must match the pattern. The tail has a fixed
      width, so the year field is everything before the last eleven characters. */
  function Lex(s: string): (r: Option<RawFields>)
    ensures r.Some? ==> 15 <= |s| && (|s| == 15 || s[0] == '+')
    ensures r.Some? ==> s[|s| - 11] == '-' && s[|s| - 8] == '-' && s[|s| - 5] == ' '
  {
    if |s| < 15 then None
    else
      match LexYear(s[..|s| - 11])
      case None => None
      case Some(y) =>
        match LexTail(s[|s| - 11..])
        case None => None
        case Some(f) => Some(RawFields(y, f.0, f.1, f.2, f.3))
  }

  function Min(a: int, b: int): int {
    if a <= b then a else b
  }

  /** SMART resolving of the raw fields: month 1..12 and day-of-month 1..31 are
      range-checked, then a day past the month's end is moved back to the month's
      last day; hour 24 with minute 00 is midnight at the end of the day (the next
      day's 00:00); otherwise hour 0..23 and minute 0..59 are range-checked. The
      year-of-era must be at least 1 and the resulting year at most MaxYear. */
  function Resolve(f: RawFields): (r: Option<DateTime>)
    ensures r.Some? ==> Valid(r.value)
    ensures r.Some? ==> r.value.year >= f.year && r.value.minute == f.minute
  {
    if !(1 <= f.year <= MaxYear && 1 <= f.month <= 12 && 1 <= f.day <= 31 && f.minute <= 59) then None
    else
      var date := DateTime(f.year, f.month, Min(f.day, DaysInMonth(f.year, f.month)), 0, 0);
      if f.hour == 24 && f.minute == 0 then
        var next := NextDay(date);
        if next.year <= MaxYear then Some(next) else None
      else if f.hour <= 23 then Some(date.(hour := f.hour, minute := f.minute))
      else None
  }

  /** LocalDateTime.parse with the save pattern; None where java.time throws. */
  function Parse(s: string): (r: Option<DateTime>)
    ensures r.Some? ==> Valid(r.value)
    ensures r.Some? ==> Lex(s).Some?
  {
    match Lex(s)
    case None => None
    case Some(f) => Resolve(f)
  }

  /** The raw fields a valid date-time prints as. */
  function FieldsOf(d: DateTime): (f: RawFields)
    requires Valid(d)
  {
    RawFields(d.year, d.month, d.day, d.hour, d.minute)
  }

  /** Two digit characters denote a number below 100 that Pad writes back as them. */
  lemma TwoOfPad(n: nat)
    requires n < 100
    ensures Two(Pad(n, 2)[0], Pad(n, 2)[1]) == n
  {
    var p := Pad(n, 2);
    ValueOfPad(n, 2);
    assert p[..1][..0] == [];
    assert Value(p) == Value(p[..1]) * 10 + DigitValue(p[1]);
  }

  /** Pad undoes Value: a digit string is its own value padded to its width. */
  lemma {:induction false} PadOfValue(s: string)
    requires AllDigits(s)
    ensures Pad(Value(s), |s|) == s
  {
    if |s| > 0 {
      var init := s[..|s| - 1];
      var v := Value(s);
      assert v / 10 == Value(init) && v % 10 == DigitValue(s[|s| - 1]);
      PadOfValue(init);
      assert s == init + [s[|s| - 1]];
    }
  }

  lemma LexYearOfText(year: nat)
    requires Width(year) <= 19
    ensures LexYear(YearText(year)) == Some(year)
  {
    var y := YearText(year);
    if year <= 9999 {
      ValueOfPad(year, 4);
    } else {
      assert y[1..] == Decimal(year);
      ValueOfDecimal(year);
    }
  }

  lemma LexTailOfText(month: nat, day: nat, hour: nat, minute: nat)
    requires month < 100 && day < 100 && hour < 100 && minute < 100
    ensures LexTail(TailText(month, day, hour, minute)) == Some((month, day, hour, minute))
  {
    var t := TailText(month, day, hour, minute);
    var a, b, c, e := Pad(month, 2), Pad(day, 2), Pad(hour, 2), Pad(minute, 2);
    assert t[1] == a[0] && t[2] == a[1];
    assert t[4] == b[0] && t[5] == b[1];
    assert t[7] == c[0] && t[8] == c[1];
    assert t[9] == e[0] && t[10] == e[1];
    TwoOfPad(month);
    TwoOfPad(day);
    TwoOfPad(hour);
    TwoOfPad(minute);
  }

  /** A year the calendar allows has at most nine digits. */
  lemma WidthOfYear(year: nat)
    requires year <= MaxYear
    ensures Width(year) <= 9
  {
    WidthBetween(year, 9);
  }

  /** The lexer reads back every field of a text printed field by field, in range or
      not: any year of at most nineteen digits (the most the model's year field reads)
      and any two-digit month, day, hour and minute. */
  lemma LexText(year: nat, month: nat, day: nat, hour: nat, minute: nat)
    requires Width(year) <= 19 && month < 100 && day < 100 && hour < 100 && minute < 100
    ensures Lex(YearText(year) + TailText(month, day, hour, minute))
            == Some(RawFields(year, month, day, hour, minute))
  {
    var y := YearText(year);
    var t := TailText(month, day, hour, minute);
    var s := y + t;
    assert s[..|s| - 11] == y && s[|s| - 11..] == t;
    LexYearOfText(year);
    LexTailOfText(month, day, hour, minute);
  }

  /** Formatting prints each field where the lexer reads it back. */
  lemma LexFormat(d: DateTime)
    requires Valid(d)
    ensures Lex(Format(d)) == Some(FieldsOf(d))
  {
    WidthOfYear(d.year);
    LexText(d.year, d.month, d.day, d.hour, d.minute);
  }

  /** Fields that already name a valid date-time are resolved to exactly it:
      no clamping or roll-over happens. */
  lemma ResolveInRange(d: DateTime)
    requires Valid(d)
    ensures Resolve(FieldsOf(d)) == Some(d)
  {
  }

  /** Round trip: the save text of a date-time parses back to the same date-time. */
  lemma ParseFormat(d: DateTime)
    requires Valid(d)
    ensures Parse(Format(d)) == Some(d)
  {
    LexFormat(d);
    ResolveInRange(d);
  }

  /** Two digit characters are the padded text of the number they denote. */
  lemma PadOfTwo(t: string, i: nat)
    requires i + 2 <= |t| && IsDigit(t[i]) && IsDigit(t[i + 1])
    ensures Pad(Two(t[i], t[i + 1]), 2) == t[i..i + 2]
  {
    var ab := t[i..i + 2];
    assert ab[..1][..0] == [];
    assert Value(ab) == Two(t[i], t[i + 1]);
    PadOfValue(ab);
  }

  /** A canonical tail is the tail text of the fields it lexes to. */
  lemma TailTextOfLex(t: string)
    requires LexTail(t).Some?
    ensures var f := LexTail(t).value; TailText(f.0, f.1, f.2, f.3) == t
  {
    var f := LexTail(t).value;
    PadOfTwo(t, 1);
    PadOfTwo(t, 4);
    PadOfTwo(t, 7);
    PadOfTwo(t, 9);
    TailPieces(t, Pad(f.0, 2), Pad(f.1, 2), Pad(f.2, 2), Pad(f.3, 2));
  }

  /** An eleven-character tail is its separators and its four two-character fields. */
  lemma TailPieces(t: string, a: string, b: string, c: string, d: string)
    requires |t| == 11 && t[0] == '-' && t[3] == '-' && t[6] == ' '
    requires a == t[1..3] && b == t[4..6] && c == t[7..9] && d == t[9..11]
    ensures "-" + a + "-" + b + " " + c + d == t
  {
    assert t == [t[0]] + t[1..3] + [t[3]] + t[4..6] + [t[6]] + t[7..9] + t[9..11];
  }

  /** The converse round trip on canonical text: a 15-character text whose fields
      are already in range is exactly the save text of what it parses to. */
  lemma FormatParse(s: string, d: DateTime)
    requires |s| == 15 && Valid(d) && Lex(s) == Some(FieldsOf(d))
    ensures Parse(s) == Some(d) && Format(d) == s
  {
    ResolveInRange(d);
    var y, t := s[..4], s[4..];
    assert LexYear(y) == Some(d.year);
    PadOfValue(y);
    assert YearText(d.year) == y;
    TailTextOfLex(t);
    assert s == y + t;
  }

  /** Exactly when java.time rejects the raw fields: year-of-era, month, day-of-month
      or minute out of range, an hour past 24, 24 with a minute other than 00, or
      the end of the last day of year MaxYear. */
  lemma ResolveRejects(f: RawFields)
    ensures Resolve(f).None? <==>
      || !(1 <= f.year <= MaxYear)
      || !(1 <= f.month <= 12)
      || !(1 <= f.day <= 31)
      || f.minute > 59
      || f.hour > 24
      || (f.hour == 24 && f.minute != 0)
      || (f.hour == 24 && f.year == MaxYear && f.month == 12 && f.day == 31)
  {
  }

  /** A day-of-month past the end of its month (but at most 31) is moved back to
      the month's last day instead of being rejected. */
  lemma ResolveClampsDay(f: RawFields)
    requires 1 <= f.year <= MaxYear && 1 <= f.month <= 12
    requires DaysInMonth(f.year, f.month) < f.day <= 31
    requires f.hour <= 23 && f.minute <= 59
    ensures Resolve(f) == Some(DateTime(f.year, f.month, DaysInMonth(f.year, f.month), f.hour, f.minute))
  {
  }

  /** Hour 24 with minute 00 means midnight at the end of the given day; only the
      last day of the last year has no day after it. */
  lemma ResolveEndOfDay(f: RawFields)
    requires ValidDate(f.year, f.month, f.day) && f.hour == 24 && f.minute == 0
    requires !(f.year == MaxYear && f.month == 12 && f.day == 31)
    ensures Resolve(f) == Some(NextDay(DateTime(f.year, f.month, f.day, 0, 0)))
  {
  }

  /** The two adjustments combine: a day past the month's end is first moved back to
      the month's last day, and 24:00 then steps to the first day of the next month. */
  lemma ResolveEndOfClampedDay(f: RawFields)
    requires 1 <= f.year <= MaxYear && 1 <= f.month <= 12
    requires DaysInMonth(f.year, f.month) < f.day <= 31 && f.hour == 24 && f.minute == 0
    ensures f.month < 12 && Resolve(f) == Some(DateTime(f.year, f.month + 1, 1, 0, 0))
  {
  }

  /** Texts that do not have the pattern's shape are rejected: too short, longer
      than fifteen characters without a '+' sign, or with a wrong separator. */
  lemma ParseRejectsShape(s: string)
    requires || |s| < 15
             || (|s| > 15 && s[0] != '+')
             || (|s| >= 15 && (s[|s| - 11] != '-' || s[|s| - 8] != '-' || s[|s| - 5] != ' '))
    ensures Parse(s) == None
  {
  }

  /** A non-digit where a month, day, hour or minute digit is expected is rejected. */
  lemma ParseRejectsNonDigit(s: string, i: nat)
    requires |s| >= 15 && |s| - 10 <= i < |s|
    requires i !in {|s| - 8, |s| - 5}
    requires !IsDigit(s[i])
    ensures Parse(s) == None
  {
    var t := s[|s| - 11..];
    assert t[i - (|s| - 11)] == s[i];
    assert LexTail(t).None?;
  }

  /** A non-digit in the year field is rejected: after the optional '+', every
      character before the eleven-character tail must be a digit. */
  lemma ParseRejectsYearNonDigit(s: string, i: nat)
    requires |s| >= 15 && (if s[0] == '+' then 1 else 0) <= i < |s| - 11
    requires !IsDigit(s[i])
    ensures Parse(s) == None
  {
    var y := s[..|s| - 11];
    assert y[i] == s[i];
    if s[0] == '+' {
      assert y[1..][i - 1] == s[i];
    }
  }

  lemma ExampleFormat()
    ensures Format(DateTime(2024, 12, 1, 18, 0)) == "2024-12-01 1800"
  {
  }

  /** The text arrives as a parameter so that the verifier reads the literal only
      once, through the round trip, instead of expanding it character by character. */
  lemma ExampleParse(s: string)
    requires s == "2024-12-01 1800"
    ensures Parse(s) == Some(DateTime(2024, 12, 1, 18, 0))
  {
    ExampleFormat();
    ParseFormat(DateTime(2024, 12, 1, 18, 0));
  }
}

=== FILE: wrappers.dfy ===
/** Failure-carrying result types shared by the rest of the model. */
module Wrappers {

  /** A value that may be absent, used for the partial parsers. */
  datatype Option<+T> = None | Some(value: T)

  /** A computation that either succeeds with a value or fails with an error. */
  datatype Result<+R, +E> = Success(value: R) | Failure(error: E)
}
